=== FILE: README.md ===
# Trademark intake wizard — a Dafny model

This project models the core of a multi-step intake form for a trademark
registration service. The form collects three things in order: the
applicant (the *cliente*), the trademark holder (the *titular*, either an
individual, *pessoa física*, or a company, *pessoa jurídica*) and the
trademark (the *marca*). A final step asks the applicant to accept the terms.

The model covers:

- the record (`FormState`) and its initial value;
- the section updaters: three shallow-merge a partial record into the applicant, the holder or the trademark, and the fourth replaces the terms with a record built from one boolean;
- `validateStep`, an ordered list of guards per step where the first failing guard decides;
- the step counter behind the "back", "next" and "finish" buttons;
- the handlers that change the record: the CEP (postal code) and CNPJ (company id) lookups, the state-code upper-casing, the file-size gates of the uploads, and the radio buttons;
- the two effects of the individual-holder component. One copies the applicant into the holder. The other clears the holder when an attorney (*procurador*) represents it.

Every operation is a pure function over immutable datatypes. The code of the
CPF, CNPJ, CEP and e-mail validators is not available, so they are left
uninterpreted. They are passed around as a `Validators` value holding four
`string -> bool` functions. The HTTP lookups are replaced by their outcome,
given as a parameter:

- `CepFound | CepErro | CepException` for the postal-code lookup;
- `CnpjFound | CnpjNotOk | CnpjException` for the company lookup.

A picked file is its name and size in bytes.

The component effects are modelled as functions applied after every event.
`Wizard.Settle` runs them whenever the individual-holder component is
mounted, which is on step 2 with `tipo = pf`. `Wizard.Step` is one user
event followed by those effects. `Wizard.Run` folds a sequence of events.
An event exists only while its input is on screen, so applicant inputs act
only on step 1, and so on. The three edit events carry an arbitrary partial
record, which includes patches no single input writes (a registry snapshot,
or a choice reset to null); every property below holds over that larger set
of events.

The model follows the code as written, including where it accepts more than one might expect from the form's own texts:

- Switching `tipo` is a plain merge. It keeps the other branch's fields; it does not discard them.
- An individual holder with `possuiSociedade = true` passes step 2. The form only shows a warning to choose the company option (TitularPF.tsx:134-137).
- `representante` is never checked in step 2.
- A company holder passes with `dadosCnpjCorretos = false`.
- Step 1 requires the applicant's identity document, although its label calls the upload optional.
- Step 1 checks the phone by its masked length (at least 14 characters), not by counting digits.

## Model

| member | source | states |
|---|---|---|
| FormTypes.ParseRepresentante | src/types/formTypes.ts:22 | `representante` takes exactly the four strings "titular", "procurador", "sim", "nao"; each reads back as its own value |
| FormTypes.ParseUtilizacao | src/types/formTypes.ts:60 | `utilizacao` takes exactly "produtos", "servicos", "outros" and ""; each reads back as its own value |
| FormTypes.RepresentanteRoundTrip | src/types/formTypes.ts:22 | each of the four `representante` values reads back from its string as itself |
| FormTypes.UtilizacaoRoundTrip | src/types/formTypes.ts:60 | each of the four `utilizacao` values reads back from its string as itself |
| FormTypes.InitialDefaults | src/types/formTypes.ts:71-119 | the initial record is on step 1; every applicant and holder text field is empty; contact preference is whatsapp; tipo is pf; representante is titular; sociedade, confirmation, logo answer and registry snapshot are unset; terms are not accepted |
| FormTypes.MergeCliente | src/pages/Index.tsx:21-26 | spread merge: each applicant key named in the partial takes the partial's value; every other key keeps its value |
| FormTypes.MergeTitular | src/pages/Index.tsx:28-33 | spread merge on the holder, key by key, for all twenty keys including tipo and the registry snapshot |
| FormTypes.MergeMarca | src/pages/Index.tsx:35-40 | spread merge on the trademark, key by key |
| FormTypes.MergeLaws | src/pages/Index.tsx:21-40 | merging the empty partial is the identity; merging the same partial twice equals merging it once |
| Text.Digits | src/components/form-steps/TitularPF.tsx:22 | stripping non-digits keeps exactly the ASCII digits of the input, each as often as it occurs there (so the count of digits is preserved), never lengthens it, and yields "" exactly when the input has no digit |
| Text.ToUpperAscii | src/components/form-steps/Etapa1_DadosCliente.tsx:179 | upper-casing keeps the length, maps each position independently and leaves no lower-case letter |
| Text.ToUpperIdempotent | src/components/form-steps/Etapa1_DadosCliente.tsx:179 | upper-casing an upper-cased state code changes nothing |
| Text.ToUpperFixedPoints | src/components/form-steps/Etapa1_DadosCliente.tsx:179 | a string is unchanged by upper-casing exactly when it has no lower-case letter |
| StepValidation.FirstFailure | src/pages/Index.tsx:49-172 | guards run in order: nothing is reported iff every guard holds; otherwise the report is the violation of the first guard that fails |
| StepValidation.FirstFailureExact | src/pages/Index.tsx:49-172 | when violations are distinct, violation k is reported iff guard k fails and all earlier guards hold |
| StepValidation.CheckCliente | src/pages/Index.tsx:51-86 | step 1 passes iff name, CPF (non-empty and valid), e-mail (non-empty and valid), phone length ≥ 14, CEP (non-empty and valid), the five address keys and the identity document are all present; the reported failure is the first in that order |
| StepValidation.CheckPf | src/pages/Index.tsx:91-119 | individual holder passes iff name length ≥ 3, CPF valid, birth date, CEP valid, five address keys, profession and a sociedade answer; the reported failure is the first in that order |
| StepValidation.CheckPj | src/pages/Index.tsx:120-133 | company holder passes iff the CNPJ is valid, a registry snapshot is present and the confirmation question was answered; the reported failure is the first in that order |
| StepValidation.CheckMarca | src/pages/Index.tsx:137-159 | step 3 passes iff name, usage, activities of length ≥ 10, a logo answer, and a logo file when the answer is yes; the reported failure is the first in that order |
| StepValidation.CheckStep | src/pages/Index.tsx:49-172 | per step, no violation iff the section is complete, and a reported violation is exactly the first failing guard of that step's list; step 4 reports only the refused terms; other numbers report nothing |
| StepValidation.ValidateStep | src/pages/Index.tsx:49-172 | step 1 ⇔ applicant complete; step 2 ⇔ the branch chosen by tipo is complete; step 3 ⇔ trademark complete; step 4 ⇔ terms accepted; any other number passes |
| StepValidation.PfIgnoresRepresentanteAndSociedade | src/pages/Index.tsx:91-119 | for an individual holder, changing representante or the sociedade answer (once given) never changes the step-2 outcome |
| StepValidation.PfSociedadeTrueCanPass | src/pages/Index.tsx:116-119 | an individual holder answering "yes, has a related company" passes step 2 when the other fields are complete |
| StepValidation.PjIgnoresRepresentanteAndConfirmation | src/pages/Index.tsx:120-133 | for a company holder, representante ("nao" included) and the confirmation answer ("no" included) never change the step-2 outcome |
| StepValidation.InitialFailsEveryStep | src/types/formTypes.ts:71-119 | the initial record fails step 1 on the applicant name, step 2 on the holder name, step 3 on the trademark name and step 4 on the terms |
| DadosCliente.BuscarCep | src/components/form-steps/Etapa1_DadosCliente.tsx:16-43 | an invalid CEP, an `erro` answer or an exception leave the applicant unchanged; a found address overwrites exactly street, neighbourhood, city (from `localidade`) and state; CEP, number and complement are untouched |
| DadosCliente.SetUf | src/components/form-steps/Etapa1_DadosCliente.tsx:179 | the state code is stored upper-cased position by position: each lower-case letter becomes its upper-case letter, every other character is kept, the length is kept, and nothing else changes |
| DadosCliente.SelectRg | src/components/form-steps/Etapa1_DadosCliente.tsx:221-229 | a file over 5·1024·1024 bytes is refused and the field kept; an accepted file stores its name; no file stores "" |
| DadosMarca.ChoosePossuiLogo | src/components/form-steps/Etapa3_DadosMarca.tsx:79-82 | the logo answer becomes exactly (value == "true"); the logo name is not cleared when the answer becomes no |
| DadosMarca.SelectLogo | src/components/form-steps/Etapa3_DadosMarca.tsx:125-137 | no file, or a file over 2·1024·1024 bytes, changes nothing; an accepted file stores its name as logoUrl and nothing else |
| DadosMarca.RemoveLogo | src/components/form-steps/Etapa3_DadosMarca.tsx:146-147 | removing empties logoUrl and nothing else |
| DadosMarca.SelectThenRemove | src/components/form-steps/Etapa3_DadosMarca.tsx:125-147 | removing after any selection gives the same record as removing directly |
| TitularPj.DadosFromResponse | src/components/form-steps/TitularPJ.tsx:34-41 | legal name is `razao_social`, else `nome_fantasia`, else ""; it is "" iff both are absent or empty; trade name, activity and status each default to "" |
| TitularPj.BuscarCnpj | src/components/form-steps/TitularPJ.tsx:16-47 | an invalid CNPJ, a non-ok response or an exception change nothing; a found company replaces only the registry snapshot |
| TitularPj.ChooseCorretos | src/components/form-steps/TitularPJ.tsx:94-102 | the confirmation becomes exactly (value == "true"), nothing else changes |
| TitularPj.ChooseRepresentante | src/components/form-steps/TitularPJ.tsx:123-127 | the radio offers sim, nao and procurador; the choice is stored and nothing else changes |
| TitularPj.LookupKeepsAnswers | src/components/form-steps/TitularPJ.tsx:34-41 | a lookup never changes the CNPJ text, the confirmation answer or the representative |
| TitularPf.CpfFeedback | src/components/form-steps/TitularPF.tsx:21-39 | no feedback when the input has no digit; the validator's verdict when it has exactly 11 digits; "invalid" for any other number of digits |
| TitularPf.SelfCopy | src/components/form-steps/TitularPF.tsx:46-56 | the copy writes exactly name, CPF and the seven address keys from the applicant; birth date, profession, documents and the company branch are untouched |
| TitularPf.Clear | src/components/form-steps/TitularPF.tsx:62-78 | the clear empties name, CPF, the seven address keys, birth date and profession, and keeps the three document names |
| TitularPf.Effects | src/components/form-steps/TitularPF.tsx:42-78 | the copy fires iff no related company, representante titular, empty holder name and non-empty applicant name; with procurador the clear fires; otherwise nothing changes; afterwards the copy guard is false |
| TitularPf.EffectsIdempotent | src/components/form-steps/TitularPF.tsx:42-78 | running the effects on their own result changes nothing, so one pass is the state the re-running effects settle in |
| TitularPf.CopyNeverRefires | src/components/form-steps/TitularPF.tsx:43-45 | once the holder has a name, no applicant data re-triggers the copy; the name changes only by the procurador clear |
| TitularPf.CopyRefiresWhenNameEmptied | src/components/form-steps/TitularPF.tsx:43-45 | the guard is "holder name empty": emptying the name with the guard's other conditions in place copies the applicant's name again |
| TitularPf.ProcuradorWipesEdits | src/components/form-steps/TitularPF.tsx:62-78 | with procurador, any name just typed into the holder is emptied by the effect |
| TitularPf.EffectsOnChoice | src/components/form-steps/TitularPF.tsx:62-78 | corrected effect: the clear fires only on the change to procurador; later edits are kept; the copy is unchanged; when neither fires the holder is left exactly as it is |
| TitularPf.OnChoiceKeepsProcuradorEdits | src/components/form-steps/TitularPF.tsx:62-78 | under the corrected effect, a name typed while procurador is already chosen is kept |
| TitularPf.BuscarCep | src/components/form-steps/TitularPF.tsx:80-107 | an invalid CEP, an `erro` answer or an exception change nothing; a found address overwrites only the holder's street, neighbourhood, city (from `localidade`) and state |
| TitularPf.SetUf | src/components/form-steps/TitularPF.tsx:323 | the holder state code is stored upper-cased position by position: each lower-case letter becomes its upper-case letter, every other character is kept, the length is kept, and nothing else changes |
| TitularPf.ChooseSociedade | src/components/form-steps/TitularPF.tsx:115-119 | the sociedade answer becomes exactly (value == "true"), nothing else changes |
| TitularPf.ChooseRepresentante | src/components/form-steps/TitularPF.tsx:165-170 | the radio offers titular and procurador; the choice is stored and nothing else changes |
| TitularPf.ChoosingProcuradorClears | src/components/form-steps/TitularPF.tsx:62-78 | choosing procurador and running the effects yields exactly the cleared holder |
| TitularPf.SelectDocumento | src/components/form-steps/TitularPF.tsx:356-368 | identity, diploma and power-of-attorney pickers (also lines 405-417 and 455-467): no file or a file over 5·1024·1024 bytes changes nothing; an accepted file stores its name in that document's field and nowhere else |
| TitularPf.RemoveDocumento | src/components/form-steps/TitularPF.tsx:377-378 | a remove button (also lines 427 and 477) empties that document's field and nothing else |
| TitularPf.EffectsKeepDocumentos | src/components/form-steps/TitularPF.tsx:62-78 | neither effect touches an uploaded document name |
| Wizard.UpdateCliente | src/pages/Index.tsx:21-26 | only the applicant changes, by the spread merge; other sections and the step are unchanged |
| Wizard.UpdateTitular | src/pages/Index.tsx:28-33 | only the holder changes, by the spread merge; other sections and the step are unchanged |
| Wizard.UpdateMarca | src/pages/Index.tsx:35-40 | only the trademark changes, by the spread merge; other sections and the step are unchanged |
| Wizard.UpdateTermos | src/pages/Index.tsx:42-47 | the terms become exactly the given answer; nothing else changes |
| Wizard.SwitchTipoKeepsOtherBranch | src/components/form-steps/Etapa2_DadosTitular.tsx:25-28 | choosing pf or pj changes `tipo` only; the other branch's fields stay |
| Wizard.NextStep | src/pages/Index.tsx:174-179 | the step rises by exactly one when the current step validates; otherwise the record is unchanged; the sections never change |
| Wizard.PrevStep | src/pages/Index.tsx:181-184 | the step drops by exactly one, with no validation; the sections never change |
| Wizard.PrevUndoesNext | src/pages/Index.tsx:174-184 | going back after a successful move forward restores the record |
| Wizard.HandleSubmit | src/pages/Index.tsx:186-199 | the step becomes 5 when the terms are accepted; otherwise the record is unchanged |
| Wizard.Press | src/pages/Index.tsx:218-272 | no button on step 5, back only above step 1, next below step 4, finish otherwise; a button that is not shown does nothing; an offered back, next or finish performs `prevStep`, `nextStep` or `handleSubmit`; a press keeps the step within 1 to 5, moves it by at most one, and reaches 5 only by finish from step 4 with the terms accepted |
| Wizard.Apply | src/pages/Index.tsx:201-216 | an input event changes only the section of the step on screen and never the step |
| Wizard.ApplyDispatch | src/pages/Index.tsx:201-272 | a click presses its button; an edit on its own page merges into that section; a terms choice on step 4 replaces the terms; an input of a holder component does nothing while that component is not mounted |
| Wizard.ApplyClienteInputs | src/components/form-steps/Etapa1_DadosCliente.tsx:109-229 | on step 1 the postal-code blur runs the applicant lookup, the state-code input stores the upper-cased code and the identity picker applies its size gate, each on the applicant only |
| Wizard.ApplyTitularPfInputs | src/components/form-steps/TitularPF.tsx:115-478 | while the individual-holder component is mounted, the postal-code blur, state code, sociedade radio, representante radio (titular or procurador only; other values do nothing), document pickers and remove buttons each apply their handler to the holder only |
| Wizard.ApplyTitularPjInputs | src/components/form-steps/TitularPJ.tsx:57-127 | while the company-holder component is mounted, the CNPJ blur runs the lookup, the confirmation radio stores its answer and the representante radio stores sim, nao or procurador (titular does nothing), each on the holder only |
| Wizard.ApplyMarcaInputs | src/components/form-steps/Etapa3_DadosMarca.tsx:79-147 | on step 3 the logo radio, the logo picker and the remove button each apply their handler to the trademark only |
| Wizard.Step | src/pages/Index.tsx:201-272 | one event followed by the holder effects: only the holder differs from the event's own result, the result is already settled, the effects run exactly when the individual-holder component is mounted after the event and otherwise the event's result is kept whole, and the step stays within 1 to 5 moving by at most one |
| Wizard.Run | src/pages/Index.tsx:201-272 | after a non-empty sequence of events the record is settled; events without a button press never move the step |
| Wizard.Settle | src/components/form-steps/TitularPF.tsx:42-78 | the holder effects run exactly while the individual-holder component is mounted and change only the holder |
| Wizard.StepIsSettled | src/components/form-steps/TitularPF.tsx:42-78 | after every event the effects have reached their fixpoint |
| Wizard.StepBounds | src/pages/Index.tsx:174-199 | one event keeps the step within 1 to 5 and moves it by at most one |
| Wizard.RunBounds | src/pages/Index.tsx:174-272 | any sequence of events keeps the step within 1 to 5 |
| Wizard.TerminalStep | src/pages/Index.tsx:218-229 | on step 5 no event changes the record |
| Wizard.RunFromTerminal | src/pages/Index.tsx:218-229 | from step 5 any sequence of events leaves the record as it is |
| Wizard.EnterTerminalOnlyBySubmit | src/pages/Index.tsx:186-199 | step 5 is entered only by finish, from step 4, with the terms accepted |
| Wizard.InitialRunBounds | src/types/formTypes.ts:71-73 | from the initial record every run stays within steps 1 to 5 |
| Wizard.TitularCepKeepsCliente | src/components/form-steps/TitularPF.tsx:96-101 | the holder postal-code lookup never changes the applicant |
| Wizard.NoSociedadeCopiesApplicant | src/components/form-steps/TitularPF.tsx:42-59 | answering "no related company" as titular with an empty holder name gives exactly the copied holder: the applicant's name, CPF and all seven address keys, with every other holder field kept |
| Wizard.ProcuradorBlocksHolderStep | src/components/form-steps/TitularPF.tsx:62-78 | as written, after any event leaving an individual holder with procurador on step 2, the holder name is empty and step 2 fails |
| Wizard.ProcuradorNameIsLost | src/components/form-steps/TitularPF.tsx:62-78 | concrete case: typing "Maria Souza" as the holder name under procurador leaves the name empty |
| Wizard.SettleOnChoice | src/components/form-steps/TitularPF.tsx:62-78 | the corrected effects run while the component is mounted and change only the holder |
| Wizard.StepOnChoice | src/components/form-steps/TitularPF.tsx:42-78 | one event under the corrected effect differs from the as-written step only in the holder, which is the corrected effect of the event's result whenever the component is mounted (so a newly chosen procurador clears the holder); and not at all when the component is not mounted or procurador is not chosen; with procurador already chosen and still chosen, the event's result is kept exactly (the correction) |
| Wizard.OnChoiceClearsThenKeeps | src/components/form-steps/TitularPF.tsx:62-78 | under the corrected effect, choosing procurador clears the holder name and a name typed afterwards is kept |
| Wizard.OnChoiceProcuradorCanPass | src/components/form-steps/TitularPF.tsx:62-78 | under the corrected effect, an attorney-represented individual holder filled in completely passes step 2 |

## Findings

| source | as written | input that shows it | evidently intended | confidence | as-written member | corrected member |
|---|---|---|---|---|---|---|
| src/components/form-steps/TitularPF.tsx:62-78 | The clear effect depends on `updateFormData`. Index.tsx:28 creates that function anew on every render, so the clear re-runs after every render while `representante = "procurador"`. Its own update re-renders the page, which creates the function again, so the effect re-runs without end. It wipes each value typed into the holder's name, CPF, address, birth date and profession, so an attorney-represented individual holder can never pass step 2. | tipo pf, possuiSociedade false, representante procurador, on step 2; type "Maria Souza" as the holder name. | Clear the holder once, when procurador is chosen, and keep what is typed afterwards. | medium; not executed | TitularPf.Effects (shown by Wizard.ProcuradorBlocksHolderStep and Wizard.ProcuradorNameIsLost) | TitularPf.EffectsOnChoice (proved by Wizard.OnChoiceClearsThenKeeps and Wizard.OnChoiceProcuradorCanPass) |

The event model (`Wizard.Step`) keeps the effect as written, because that is
how the form behaves. `Wizard.StepOnChoice` is the same event step built on
the corrected effect.

## Left out

- Validators and masks: `validateCPF`, `validateCNPJ`, `validateCEP`, `validateEmail`, `cpfMask`, `cepMask`, `phoneMask` and `cnpjMask` live in files that are not part of this model. The validators are uninterpreted parameters. An edit event carries the already-masked value.
- Network lookups: the viacep and brasilapi requests are I/O, replaced by their outcome. A lookup is applied together with the blur that starts it. A result arriving after the user has left the step is not modelled. A result for a CEP that was edited since is applied anyway, just as the source does.
- A found viacep address is assumed to carry all four keys as strings; a missing key, which the source would store as `undefined`, is not modelled.
- Presentation side effects: toasts, `window.scrollTo`, `console.log`, and resetting the file input's value.
- The `try`/`catch` of `handleSubmit`: nothing in its body can fail in the model, so the error toast branch is not modelled.
- Stored file objects (`rgClienteFile`, `logoFile` and the others): nothing in the modelled code writes them. Storage uploads (`src/utils/fileUpload.ts`, `src/components/FileUpload.tsx`) and the notification e-mail function are outside this model.
- Display-only files: the header, progress bar, footer, sidebar, toaster, section wrapper, confirmation and thank-you pages.
- The registry snapshot has the four keys the lookup writes. The type declares nine more (size, legal nature, registered address) that no modelled code ever sets.
- The step-1 guard on `preferenciaContato` (Index.tsx:77-80) can never fail, because the field always holds "whatsapp" or "email". The model omits it.
- Visibility inside a mounted component is not modelled. The individual-holder fields show only after "no related company"; the company radios show only once a snapshot exists. The model allows those events whenever the component is mounted, so its invariants cover a superset of what the page allows.
- `maxLength` limits of the input elements are not modelled.
- Lengths count Unicode scalar values. JavaScript's `.length` counts UTF-16 code units, so the two differ only for characters outside the Basic Multilingual Plane.
- React re-renders: only the values the effects produce are modelled. Repeated renders caused by new object identities are not.
- DadosCliente.SetUf: upper-cases ASCII letters only; `toUpperCase` also maps non-ASCII letters.
- TitularPf.SetUf: upper-cases ASCII letters only, for the same reason.
- Text.ToUpperAscii: covers ASCII letters only, for the same reason.

=== FILE: dados_cliente.dfy ===
/** The handlers of the applicant step (Etapa 1) that do more than copy an
    input into its field: the postal-code lookup, the state code and the
    identity-document picker. */
module DadosCliente {
  import opened Wrappers
  import opened FormTypes
  import opened External
  import Text

  /** `buscarCEP`: an invalid code triggers nothing; an `erro` answer or an
      exception changes nothing; a found address overwrites street,
      neighbourhood, city and state, and no other key of the applicant */
  function BuscarCep(c: Cliente, cep: string, v: Validators, outcome: CepOutcome): (r: Cliente)
    ensures !v.cep(cep) ==> r == c
    ensures !outcome.CepFound? ==> r == c
    ensures v.cep(cep) && outcome.CepFound? ==>
      r == c.(logradouro := outcome.address.logradouro,
              bairro := outcome.address.bairro,
              cidade := outcome.address.localidade,
              uf := outcome.address.uf)
  {
    if !v.cep(cep) then c
    else
      match outcome
      case CepFound(a) =>
        MergeCliente(c, NoClienteChange.(logradouro := Some(a.logradouro),
                                         bairro := Some(a.bairro),
                                         cidade := Some(a.localidade),
                                         uf := Some(a.uf)))
      case _ => c
  }

  /** The state-code input: the typed text is stored upper-cased and
      nothing else changes */
  function SetUf(c: Cliente, raw: string): (r: Cliente)
    ensures r == c.(uf := r.uf)
    ensures |r.uf| == |raw| && Text.NoLower(r.uf)
    ensures forall i :: 0 <= i < |raw| && !Text.IsLower(raw[i]) ==> r.uf[i] == raw[i]
    ensures forall i :: 0 <= i < |raw| && Text.IsLower(raw[i]) ==> r.uf[i] as int + 32 == raw[i] as int
    ensures r.uf == Text.ToUpperAscii(raw)
  {
    MergeCliente(c, NoClienteChange.(uf := Some(Text.ToUpperAscii(raw))))
  }

  /** The identity-document picker: a file over the 5 MiB limit is refused
      and the field kept; otherwise the field becomes the file's name, or
      the empty string when no file was picked */
  function SelectRg(c: Cliente, file: Option<FileInfo>): (r: Cliente)
    ensures file.Some? && TooLarge(file.value, DocumentLimit) ==> r == c
    ensures file.Some? && !TooLarge(file.value, DocumentLimit) ==> r == c.(rgClienteUrl := file.value.name)
    ensures file.None? ==> r == c.(rgClienteUrl := "")
  {
    if file.Some? && TooLarge(file.value, DocumentLimit) then c
    else
      var name := if file.Some? then file.value.name else "";
      MergeCliente(c, NoClienteChange.(rgClienteUrl := Some(name)))
  }
}

=== FILE: dados_marca.dfy ===
/** The handlers of the trademark step (Etapa 3) beyond plain field
    copies: the "has a logo?" radio and the logo picker. */
module DadosMarca {
  import opened Wrappers
  import opened FormTypes
  import opened External

  /** The "has a logo?" radio: stores whether the chosen value is "true";
      an already chosen logo is kept even when the answer becomes "no" */
  function ChoosePossuiLogo(m: Marca, value: string): (r: Marca)
    ensures r.possuiLogo == Some(value == "true")
    ensures r == m.(possuiLogo := r.possuiLogo)
    ensures r.logoUrl == m.logoUrl
  {
    MergeMarca(m, NoMarcaChange.(possuiLogo := Some(Some(value == "true"))))
  }

  /** The logo picker: no file or a file over the 2 MiB limit changes
      nothing; an accepted file's name becomes `logoUrl` */
  function SelectLogo(m: Marca, file: Option<FileInfo>): (r: Marca)
    ensures file.None? ==> r == m
    ensures file.Some? && TooLarge(file.value, LogoLimit) ==> r == m
    ensures file.Some? && !TooLarge(file.value, LogoLimit) ==> r == m.(logoUrl := file.value.name)
  {
    if file.None? || TooLarge(file.value, LogoLimit) then m
    else MergeMarca(m, NoMarcaChange.(logoUrl := Some(file.value.name)))
  }

  /** The remove button: `logoUrl` becomes empty and nothing else changes */
  function RemoveLogo(m: Marca): (r: Marca)
    ensures r == m.(logoUrl := "")
  {
    MergeMarca(m, NoMarcaChange.(logoUrl := Some("")))
  }

  /** Removing after selecting returns to an empty logo, whatever was picked */
  lemma SelectThenRemove(m: Marca, file: Option<FileInfo>)
    ensures RemoveLogo(SelectLogo(m, file)) == RemoveLogo(m)
  {
  }
}

=== FILE: external.dfy ===
/** What the form consumes from code outside the model: the validators and
    masks of `@/utils`, the two HTTP lookups, and the browser's file picker. */
module External {
  import opened Wrappers

  /** `validateCPF`, `validateCNPJ`, `validateCEP` and `validateEmail`,
      left uninterpreted: every operation that consults them takes them as
      a parameter */
  datatype Validators = Validators(
    cpf: string -> bool,
    cnpj: string -> bool,
    cep: string -> bool,
    email: string -> bool)

  /** A picked file, reduced to what the handlers read: its name and its
      size in bytes */
  datatype FileInfo = FileInfo(name: string, size: nat)

  const MiB: nat := 1024 * 1024

  /** Largest accepted identity, diploma or power-of-attorney document */
  const DocumentLimit: nat := 5 * MiB

  /** Largest accepted logo image */
  const LogoLimit: nat := 2 * MiB

  /** The handlers reject a file only when it is strictly larger than the limit */
  predicate TooLarge(f: FileInfo, limit: nat) {
    f.size > limit
  }

  /** The address keys of a successful viacep answer */
  datatype ViaCepAddress = ViaCepAddress(
    logradouro: string,
    bairro: string,
    localidade: string,
    uf: string)

  /** How a postal-code lookup ends: an address, an answer flagged `erro`,
      or a thrown exception (network or JSON failure) */
  datatype CepOutcome =
    | CepFound(address: ViaCepAddress)
    | CepErro
    | CepException

  /** The keys of a brasilapi CNPJ answer the form reads (`razao_social`,
      `nome_fantasia`, `cnae_fiscal_descricao`,
      `descricao_situacao_cadastral`); `None` is an absent or null key */
  datatype CnpjResponse = CnpjResponse(
    razaoSocial: Option<string>,
    nomeFantasia: Option<string>,
    cnaeDescricao: Option<string>,
    situacaoDescricao: Option<string>)

  /** How a company lookup ends: a parsed answer, a response that is not
      `ok`, or a thrown exception */
  datatype CnpjOutcome =
    | CnpjFound(data: CnpjResponse)
    | CnpjNotOk
    | CnpjException

  /** JavaScript truthiness of an optional string key */
  predicate Truthy(o: Option<string>) {
    o.Some? && o.value != ""
  }

  /** `o || fallback` */
  function OrElse(o: Option<string>, fallback: string): string {
    if Truthy(o) then o.value else fallback
  }
}

=== FILE: form_types.dfy ===
/** The intake record (`FormState`), its initial value, and the partial
    records the section updaters merge into it. */
module FormTypes {
  import opened Wrappers

  datatype Contato = Whatsapp | Email

  /** Pessoa física (individual) or pessoa jurídica (company) holder */
  datatype Tipo = PF | PJ

  /** The four values the `representante` radio groups can store */
  datatype Representante = RepTitular | RepProcurador | RepSim | RepNao

  /** What the trademark is used for; `NaoInformada` is the empty string */
  datatype Utilizacao = Produtos | Servicos | Outros | NaoInformada

  /** The string each `representante` value has in the record */
  function RepresentanteValue(r: Representante): string {
    match r
    case RepTitular => "titular"
    case RepProcurador => "procurador"
    case RepSim => "sim"
    case RepNao => "nao"
  }

  /** Reads a `representante` string; exactly the four literals of the
      union type are accepted */
  function ParseRepresentante(s: string): (r: Option<Representante>)
    ensures forall x :: RepresentanteValue(x) == s ==> r == Some(x)
    ensures r.Some? ==> RepresentanteValue(r.value) == s
  {
    if s == "titular" then Some(RepTitular)
    else if s == "procurador" then Some(RepProcurador)
    else if s == "sim" then Some(RepSim)
    else if s == "nao" then Some(RepNao)
    else None
  }

  /** Every value written to the record reads back as itself */
  lemma RepresentanteRoundTrip(r: Representante)
    ensures ParseRepresentante(RepresentanteValue(r)) == Some(r)
  {
  }

  /** The string each `utilizacao` value has in the record */
  function UtilizacaoValue(u: Utilizacao): string {
    match u
    case Produtos => "produtos"
    case Servicos => "servicos"
    case Outros => "outros"
    case NaoInformada => ""
  }

  /** Reads a `utilizacao` string; exactly the four literals of the union
      type (the empty string included) are accepted */
  function ParseUtilizacao(s: string): (r: Option<Utilizacao>)
    ensures forall x :: UtilizacaoValue(x) == s ==> r == Some(x)
    ensures r.Some? ==> UtilizacaoValue(r.value) == s
  {
    if s == "produtos" then Some(Produtos)
    else if s == "servicos" then Some(Servicos)
    else if s == "outros" then Some(Outros)
    else if s == "" then Some(NaoInformada)
    else None
  }

  /** Every value written to the record reads back as itself */
  lemma UtilizacaoRoundTrip(u: Utilizacao)
    ensures ParseUtilizacao(UtilizacaoValue(u)) == Some(u)
  {
  }

  /** The applicant ("cliente") */
  datatype Cliente = Cliente(
    nomeCompleto: string,
    cpf: string,
    telefone: string,
    email: string,
    cep: string,
    logradouro: string,
    numero: string,
    complemento: string,
    bairro: string,
    cidade: string,
    uf: string,
    preferenciaContato: Contato,
    rgClienteUrl: string)

  /** The company-registry snapshot, with the keys the CNPJ lookup writes */
  datatype DadosCnpj = DadosCnpj(
    razaoSocial: string,
    nomeFantasia: string,
    cnae: string,
    situacao: string)

  /** The trademark holder ("titular"): one record carrying the fields of
      both the individual and the company branch */
  datatype Titular = Titular(
    tipo: Tipo,
    possuiSociedade: Option<bool>,
    representante: Representante,
    nomeCompleto: string,
    cpf: string,
    dataNascimento: string,
    cep: string,
    logradouro: string,
    numero: string,
    complemento: string,
    bairro: string,
    cidade: string,
    uf: string,
    profissao: string,
    rgTitularUrl: string,
    diplomaUrl: string,
    procuracaoUrl: string,
    cnpj: string,
    dadosCnpjCorretos: Option<bool>,
    dadosCnpj: Option<DadosCnpj>)

  /** The trademark ("marca") */
  datatype Marca = Marca(
    nome: string,
    utilizacao: Utilizacao,
    atividades: string,
    possuiLogo: Option<bool>,
    logoUrl: string)

  datatype Termos = Termos(aceitaPolitica: bool)

  datatype FormState = FormState(
    currentStep: int,
    cliente: Cliente,
    titular: Titular,
    marca: Marca,
    termos: Termos)

  /** `initialFormState` */
  const Initial: FormState :=
    FormState(
      1,
      Cliente("", "", "", "", "", "", "", "", "", "", "", Whatsapp, ""),
      Titular(PF, None, RepTitular, "", "", "", "", "", "", "", "", "", "", "",
              "", "", "", "", None, None),
      Marca("", NaoInformada, "", None, ""),
      Termos(false))

  /** Every text field of the applicant is empty */
  predicate ClienteBlank(c: Cliente) {
    && c.nomeCompleto == "" && c.cpf == "" && c.telefone == "" && c.email == ""
    && c.cep == "" && c.logradouro == "" && c.numero == "" && c.complemento == ""
    && c.bairro == "" && c.cidade == "" && c.uf == "" && c.rgClienteUrl == ""
  }

  /** Every text field of the holder is empty */
  predicate TitularBlank(t: Titular) {
    && t.nomeCompleto == "" && t.cpf == "" && t.dataNascimento == ""
    && t.cep == "" && t.logradouro == "" && t.numero == "" && t.complemento == ""
    && t.bairro == "" && t.cidade == "" && t.uf == "" && t.profissao == ""
    && t.rgTitularUrl == "" && t.diplomaUrl == "" && t.procuracaoUrl == ""
    && t.cnpj == ""
  }

  /** The defaults of the initial record */
  lemma InitialDefaults()
    ensures Initial.currentStep == 1
    ensures ClienteBlank(Initial.cliente) && Initial.cliente.preferenciaContato == Whatsapp
    ensures TitularBlank(Initial.titular)
    ensures Initial.titular.tipo == PF && Initial.titular.representante == RepTitular
    ensures Initial.titular.possuiSociedade.None? && Initial.titular.dadosCnpjCorretos.None?
    ensures Initial.titular.dadosCnpj.None?
    ensures Initial.marca.nome == "" && Initial.marca.atividades == "" && Initial.marca.logoUrl == ""
    ensures Initial.marca.utilizacao == NaoInformada && Initial.marca.possuiLogo.None?
    ensures !Initial.termos.aceitaPolitica
  {
  }

  /** `after` is what a spread `{...before, ...patch}` leaves under one key */
  predicate Patched<T(==)>(before: T, p: Option<T>, after: T) {
    if p.Some? then after == p.value else after == before
  }

  /** `Partial<FormState["cliente"]>`: `None` is a key the partial omits */
  datatype ClientePatch = ClientePatch(
    nomeCompleto: Option<string>,
    cpf: Option<string>,
    telefone: Option<string>,
    email: Option<string>,
    cep: Option<string>,
    logradouro: Option<string>,
    numero: Option<string>,
    complemento: Option<string>,
    bairro: Option<string>,
    cidade: Option<string>,
    uf: Option<string>,
    preferenciaContato: Option<Contato>,
    rgClienteUrl: Option<string>)

  const NoClienteChange: ClientePatch :=
    ClientePatch(None, None, None, None, None, None, None, None, None, None, None, None, None)

  /** `{ ...c, ...p }` */
  function MergeCliente(c: Cliente, p: ClientePatch): (r: Cliente)
    ensures Patched(c.nomeCompleto, p.nomeCompleto, r.nomeCompleto)
    ensures Patched(c.cpf, p.cpf, r.cpf)
    ensures Patched(c.telefone, p.telefone, r.telefone)
    ensures Patched(c.email, p.email, r.email)
    ensures Patched(c.cep, p.cep, r.cep)
    ensures Patched(c.logradouro, p.logradouro, r.logradouro)
    ensures Patched(c.numero, p.numero, r.numero)
    ensures Patched(c.complemento, p.complemento, r.complemento)
    ensures Patched(c.bairro, p.bairro, r.bairro)
    ensures Patched(c.cidade, p.cidade, r.cidade)
    ensures Patched(c.uf, p.uf, r.uf)
    ensures Patched(c.preferenciaContato, p.preferenciaContato, r.preferenciaContato)
    ensures Patched(c.rgClienteUrl, p.rgClienteUrl, r.rgClienteUrl)
  {
    Cliente(
      p.nomeCompleto.GetOr(c.nomeCompleto),
      p.cpf.GetOr(c.cpf),
      p.telefone.GetOr(c.telefone),
      p.email.GetOr(c.email),
      p.cep.GetOr(c.cep),
      p.logradouro.GetOr(c.logradouro),
      p.numero.GetOr(c.numero),
      p.complemento.GetOr(c.complemento),
      p.bairro.GetOr(c.bairro),
      p.cidade.GetOr(c.cidade),
      p.uf.GetOr(c.uf),
      p.preferenciaContato.GetOr(c.preferenciaContato),
      p.rgClienteUrl.GetOr(c.rgClienteUrl))
  }

  /** `Partial<FormState["titular"]>`: `None` is a key the partial omits */
  datatype TitularPatch = TitularPatch(
    tipo: Option<Tipo>,
    possuiSociedade: Option<Option<bool>>,
    representante: Option<Representante>,
    nomeCompleto: Option<string>,
    cpf: Option<string>,
    dataNascimento: Option<string>,
    cep: Option<string>,
    logradouro: Option<string>,
    numero: Option<string>,
    complemento: Option<string>,
    bairro: Option<string>,
    cidade: Option<string>,
    uf: Option<string>,
    profissao: Option<string>,
    rgTitularUrl: Option<string>,
    diplomaUrl: Option<string>,
    procuracaoUrl: Option<string>,
    cnpj: Option<string>,
    dadosCnpjCorretos: Option<Option<bool>>,
    dadosCnpj: Option<Option<DadosCnpj>>)

  const NoTitularChange: TitularPatch :=
    TitularPatch(None, None, None, None, None, None, None, None, None, None,
                 None, None, None, None, None, None, None, None, None, None)

  /** `{ ...t, ...p }` */
  function MergeTitular(t: Titular, p: TitularPatch): (r: Titular)
    ensures Patched(t.tipo, p.tipo, r.tipo)
    ensures Patched(t.possuiSociedade, p.possuiSociedade, r.possuiSociedade)
    ensures Patched(t.representante, p.representante, r.representante)
    ensures Patched(t.nomeCompleto, p.nomeCompleto, r.nomeCompleto)
    ensures Patched(t.cpf, p.cpf, r.cpf)
    ensures Patched(t.dataNascimento, p.dataNascimento, r.dataNascimento)
    ensures Patched(t.cep, p.cep, r.cep)
    ensures Patched(t.logradouro, p.logradouro, r.logradouro)
    ensures Patched(t.numero, p.numero, r.numero)
    ensures Patched(t.complemento, p.complemento, r.complemento)
    ensures Patched(t.bairro, p.bairro, r.bairro)
    ensures Patched(t.cidade, p.cidade, r.cidade)
    ensures Patched(t.uf, p.uf, r.uf)
    ensures Patched(t.profissao, p.profissao, r.profissao)
    ensures Patched(t.rgTitularUrl, p.rgTitularUrl, r.rgTitularUrl)
    ensures Patched(t.diplomaUrl, p.diplomaUrl, r.diplomaUrl)
    ensures Patched(t.procuracaoUrl, p.procuracaoUrl, r.procuracaoUrl)
    ensures Patched(t.cnpj, p.cnpj, r.cnpj)
    ensures Patched(t.dadosCnpjCorretos, p.dadosCnpjCorretos, r.dadosCnpjCorretos)
    ensures Patched(t.dadosCnpj, p.dadosCnpj, r.dadosCnpj)
  {
    Titular(
      p.tipo.GetOr(t.tipo),
      p.possuiSociedade.GetOr(t.possuiSociedade),
      p.representante.GetOr(t.representante),
      p.nomeCompleto.GetOr(t.nomeCompleto),
      p.cpf.GetOr(t.cpf),
      p.dataNascimento.GetOr(t.dataNascimento),
      p.cep.GetOr(t.cep),
      p.logradouro.GetOr(t.logradouro),
      p.numero.GetOr(t.numero),
      p.complemento.GetOr(t.complemento),
      p.bairro.GetOr(t.bairro),
      p.cidade.GetOr(t.cidade),
      p.uf.GetOr(t.uf),
      p.profissao.GetOr(t.profissao),
      p.rgTitularUrl.GetOr(t.rgTitularUrl),
      p.diplomaUrl.GetOr(t.diplomaUrl),
      p.procuracaoUrl.GetOr(t.procuracaoUrl),
      p.cnpj.GetOr(t.cnpj),
      p.dadosCnpjCorretos.GetOr(t.dadosCnpjCorretos),
      p.dadosCnpj.GetOr(t.dadosCnpj))
  }

  /** `Partial<FormState["marca"]>`: `None` is a key the partial omits */
  datatype MarcaPatch = MarcaPatch(
    nome: Option<string>,
    utilizacao: Option<Utilizacao>,
    atividades: Option<string>,
    possuiLogo: Option<Option<bool>>,
    logoUrl: Option<string>)

  const NoMarcaChange: MarcaPatch := MarcaPatch(None, None, None, None, None)

  /** `{ ...m, ...p }` */
  function MergeMarca(m: Marca, p: MarcaPatch): (r: Marca)
    ensures Patched(m.nome, p.nome, r.nome)
    ensures Patched(m.utilizacao, p.utilizacao, r.utilizacao)
    ensures Patched(m.atividades, p.atividades, r.atividades)
    ensures Patched(m.possuiLogo, p.possuiLogo, r.possuiLogo)
    ensures Patched(m.logoUrl, p.logoUrl, r.logoUrl)
  {
    Marca(
      p.nome.GetOr(m.nome),
      p.utilizacao.GetOr(m.utilizacao),
      p.atividades.GetOr(m.atividades),
      p.possuiLogo.GetOr(m.possuiLogo),
      p.logoUrl.GetOr(m.logoUrl))
  }

  /** Merging the empty partial changes nothing, and merging the same
      partial twice is merging it once */
  lemma MergeLaws(c: Cliente, cp: ClientePatch, t: Titular, tp: TitularPatch, m: Marca, mp: MarcaPatch)
    ensures MergeCliente(c, NoClienteChange) == c
    ensures MergeCliente(MergeCliente(c, cp), cp) == MergeCliente(c, cp)
    ensures MergeTitular(t, NoTitularChange) == t
    ensures MergeTitular(MergeTitular(t, tp), tp) == MergeTitular(t, tp)
    ensures MergeMarca(m, NoMarcaChange) == m
    ensures MergeMarca(MergeMarca(m, mp), mp) == MergeMarca(m, mp)
  {
  }
}

=== FILE: step_validation.dfy ===
/** `validateStep`: for each of steps 1 to 4 an ordered list of guards, the
    first failing one deciding what is reported. */
module StepValidation {
  import opened Wrappers
  import opened FormTypes
  import opened External

  /** The reason a step is refused; one per error toast of `validateStep` */
  datatype Violation =
    | ClienteNome | ClienteCpf | ClienteEmail | ClienteTelefone | ClienteCep
    | ClienteEndereco | ClienteRg
    | TitularNome | TitularCpf | TitularNascimento | TitularCep
    | TitularEndereco | TitularProfissao | TitularSociedade
    | CnpjInvalido | CnpjSemDados | CnpjSemConfirmacao
    | MarcaNome | MarcaUtilizacao | MarcaAtividades | MarcaPossuiLogo | MarcaLogo
    | TermosRecusados

  /** One guard: the condition that must hold and what is reported when it
      does not */
  datatype Check = Check(ok: bool, violation: Violation)

  /** Check `i` is the first one that fails */
  predicate FailsFirstAt(checks: seq<Check>, i: int)
    requires 0 <= i < |checks|
  {
    !checks[i].ok && forall j :: 0 <= j < i ==> checks[j].ok
  }

  /** No two guards of a list report the same violation */
  predicate Distinct(checks: seq<Check>) {
    forall i, j :: 0 <= i < j < |checks| ==> checks[i].violation != checks[j].violation
  }

  /** Runs the guards in order and reports the first that fails */
  function FirstFailure(checks: seq<Check>): (r: Option<Violation>)
    ensures r.None? <==> forall ch :: ch in checks ==> ch.ok
    ensures r.Some? ==> exists i :: 0 <= i < |checks| && FailsFirstAt(checks, i) && checks[i].violation == r.value
  {
    if |checks| == 0 then None
    else if !checks[0].ok then
      assert FailsFirstAt(checks, 0);
      Some(checks[0].violation)
    else
      var r := FirstFailure(checks[1..]);
      assert forall i :: 1 <= i < |checks| ==> checks[i] == checks[1..][i - 1];
      assert forall ch :: ch in checks <==> ch == checks[0] || ch in checks[1..];
      if r.Some? then
        var i :| 0 <= i < |checks[1..]| && FailsFirstAt(checks[1..], i) && checks[1..][i].violation == r.value;
        assert FailsFirstAt(checks, i + 1);
        r
      else
        r
  }

  /** With distinct violations, the violation reported identifies the first
      failing guard */
  lemma {:induction false} FirstFailureExact(checks: seq<Check>)
    requires Distinct(checks)
    ensures forall k :: 0 <= k < |checks| ==>
      (FirstFailure(checks) == Some(checks[k].violation) <==> FailsFirstAt(checks, k))
  {
    forall k | 0 <= k < |checks|
      ensures FirstFailure(checks) == Some(checks[k].violation) <==> FailsFirstAt(checks, k)
    {
      var r := FirstFailure(checks);
      if FailsFirstAt(checks, k) {
        assert r.Some?;
        var i :| 0 <= i < |checks| && FailsFirstAt(checks, i) && checks[i].violation == r.value;
        assert i == k;
      }
      if r == Some(checks[k].violation) {
        var i :| 0 <= i < |checks| && FailsFirstAt(checks, i) && checks[i].violation == r.value;
        assert i == k;
      }
    }
  }

  // ---- Step 1: the applicant ----

  function ClienteChecks(c: Cliente, v: Validators): seq<Check> {
    [ Check(c.nomeCompleto != "", ClienteNome),
      Check(c.cpf != "" && v.cpf(c.cpf), ClienteCpf),
      Check(c.email != "" && v.email(c.email), ClienteEmail),
      Check(c.telefone != "" && |c.telefone| >= 14, ClienteTelefone),
      Check(c.cep != "" && v.cep(c.cep), ClienteCep),
      Check(c.logradouro != "" && c.numero != "" && c.bairro != "" && c.cidade != "" && c.uf != "",
            ClienteEndereco),
      Check(c.rgClienteUrl != "", ClienteRg) ]
  }

  /** Everything step 1 demands of the applicant */
  predicate ClienteComplete(c: Cliente, v: Validators) {
    && c.nomeCompleto != ""
    && c.cpf != "" && v.cpf(c.cpf)
    && c.email != "" && v.email(c.email)
    && |c.telefone| >= 14
    && c.cep != "" && v.cep(c.cep)
    && c.logradouro != "" && c.numero != "" && c.bairro != "" && c.cidade != "" && c.uf != ""
    && c.rgClienteUrl != ""
  }

  function CheckCliente(c: Cliente, v: Validators): (r: Option<Violation>)
    ensures r.None? <==> ClienteComplete(c, v)
    ensures forall k :: 0 <= k < |ClienteChecks(c, v)| ==>
      (r == Some(ClienteChecks(c, v)[k].violation) <==> FailsFirstAt(ClienteChecks(c, v), k))
  {
    var checks := ClienteChecks(c, v);
    FirstFailureExact(checks);
    FirstFailure(checks)
  }

  // ---- Step 2: the holder ----

  function PfChecks(t: Titular, v: Validators): seq<Check> {
    [ Check(t.nomeCompleto != "" && |t.nomeCompleto| >= 3, TitularNome),
      Check(v.cpf(t.cpf), TitularCpf),
      Check(t.dataNascimento != "", TitularNascimento),
      Check(v.cep(t.cep), TitularCep),
      Check(t.logradouro != "" && t.numero != "" && t.bairro != "" && t.cidade != "" && t.uf != "",
            TitularEndereco),
      Check(t.profissao != "", TitularProfissao),
      Check(t.possuiSociedade.Some?, TitularSociedade) ]
  }

  function PjChecks(t: Titular, v: Validators): seq<Check> {
    [ Check(v.cnpj(t.cnpj), CnpjInvalido),
      Check(t.dadosCnpj.Some?, CnpjSemDados),
      Check(t.dadosCnpjCorretos.Some?, CnpjSemConfirmacao) ]
  }

  /** Everything step 2 demands of an individual holder */
  predicate PfComplete(t: Titular, v: Validators) {
    && |t.nomeCompleto| >= 3
    && v.cpf(t.cpf)
    && t.dataNascimento != ""
    && v.cep(t.cep)
    && t.logradouro != "" && t.numero != "" && t.bairro != "" && t.cidade != "" && t.uf != ""
    && t.profissao != ""
    && t.possuiSociedade.Some?
  }

  /** Everything step 2 demands of a company holder */
  predicate PjComplete(t: Titular, v: Validators) {
    v.cnpj(t.cnpj) && t.dadosCnpj.Some? && t.dadosCnpjCorretos.Some?
  }

  function CheckPf(t: Titular, v: Validators): (r: Option<Violation>)
    ensures r.None? <==> PfComplete(t, v)
    ensures forall k :: 0 <= k < |PfChecks(t, v)| ==>
      (r == Some(PfChecks(t, v)[k].violation) <==> FailsFirstAt(PfChecks(t, v), k))
  {
    var checks := PfChecks(t, v);
    FirstFailureExact(checks);
    FirstFailure(checks)
  }

  function CheckPj(t: Titular, v: Validators): (r: Option<Violation>)
    ensures r.None? <==> PjComplete(t, v)
    ensures forall k :: 0 <= k < |PjChecks(t, v)| ==>
      (r == Some(PjChecks(t, v)[k].violation) <==> FailsFirstAt(PjChecks(t, v), k))
  {
    var checks := PjChecks(t, v);
    FirstFailureExact(checks);
    FirstFailure(checks)
  }

  /** Step 2 branches on `tipo`; the other branch's fields are never read */
  function CheckTitular(t: Titular, v: Validators): Option<Violation> {
    if t.tipo == PF then CheckPf(t, v) else CheckPj(t, v)
  }

  // ---- Step 3: the trademark ----

  function MarcaChecks(m: Marca): seq<Check> {
    [ Check(m.nome != "", MarcaNome),
      Check(m.utilizacao != NaoInformada, MarcaUtilizacao),
      Check(m.atividades != "" && |m.atividades| >= 10, MarcaAtividades),
      Check(m.possuiLogo.Some?, MarcaPossuiLogo),
      Check(!(m.possuiLogo == Some(true) && m.logoUrl == ""), MarcaLogo) ]
  }

  /** Everything step 3 demands of the trademark */
  predicate MarcaComplete(m: Marca) {
    && m.nome != ""
    && m.utilizacao != NaoInformada
    && |m.atividades| >= 10
    && m.possuiLogo.Some?
    && (m.possuiLogo.value ==> m.logoUrl != "")
  }

  function CheckMarca(m: Marca): (r: Option<Violation>)
    ensures r.None? <==> MarcaComplete(m)
    ensures forall k :: 0 <= k < |MarcaChecks(m)| ==>
      (r == Some(MarcaChecks(m)[k].violation) <==> FailsFirstAt(MarcaChecks(m), k))
  {
    var checks := MarcaChecks(m);
    FirstFailureExact(checks);
    FirstFailure(checks)
  }

  // ---- All steps ----

  /** The violation `validateStep(step)` reports, if any; steps other than
      1 to 4 always pass */
  function CheckStep(s: FormState, step: int, v: Validators): (r: Option<Violation>)
    ensures step == 1 ==> (r.None? <==> ClienteComplete(s.cliente, v))
    ensures step == 1 ==> forall k :: 0 <= k < |ClienteChecks(s.cliente, v)| ==>
      (r == Some(ClienteChecks(s.cliente, v)[k].violation) <==> FailsFirstAt(ClienteChecks(s.cliente, v), k))
    ensures step == 2 && s.titular.tipo == PF ==> (r.None? <==> PfComplete(s.titular, v))
    ensures step == 2 && s.titular.tipo == PF ==> forall k :: 0 <= k < |PfChecks(s.titular, v)| ==>
      (r == Some(PfChecks(s.titular, v)[k].violation) <==> FailsFirstAt(PfChecks(s.titular, v), k))
    ensures step == 2 && s.titular.tipo == PJ ==> (r.None? <==> PjComplete(s.titular, v))
    ensures step == 2 && s.titular.tipo == PJ ==> forall k :: 0 <= k < |PjChecks(s.titular, v)| ==>
      (r == Some(PjChecks(s.titular, v)[k].violation) <==> FailsFirstAt(PjChecks(s.titular, v), k))
    ensures step == 3 ==> (r.None? <==> MarcaComplete(s.marca))
    ensures step == 3 ==> forall k :: 0 <= k < |MarcaChecks(s.marca)| ==>
      (r == Some(MarcaChecks(s.marca)[k].violation) <==> FailsFirstAt(MarcaChecks(s.marca), k))
    ensures step == 4 ==> (r.None? <==> s.termos.aceitaPolitica)
    ensures step == 4 && r.Some? ==> r == Some(TermosRecusados)
    ensures !(1 <= step <= 4) ==> r.None?
  {
    match step
    case 1 => CheckCliente(s.cliente, v)
    case 2 => CheckTitular(s.titular, v)
    case 3 => CheckMarca(s.marca)
    case 4 => if s.termos.aceitaPolitica then None else Some(TermosRecusados)
    case _ => None
  }

  /** `validateStep(step)` */
  predicate ValidateStep(s: FormState, step: int, v: Validators)
    ensures step == 1 ==> (ValidateStep(s, step, v) <==> ClienteComplete(s.cliente, v))
    ensures step == 2 && s.titular.tipo == PF ==> (ValidateStep(s, step, v) <==> PfComplete(s.titular, v))
    ensures step == 2 && s.titular.tipo == PJ ==> (ValidateStep(s, step, v) <==> PjComplete(s.titular, v))
    ensures step == 3 ==> (ValidateStep(s, step, v) <==> MarcaComplete(s.marca))
    ensures step == 4 ==> (ValidateStep(s, step, v) <==> s.termos.aceitaPolitica)
    ensures !(1 <= step <= 4) ==> ValidateStep(s, step, v)
  {
    CheckStep(s, step, v).None?
  }

  /** For an individual holder neither `representante` nor which answer was
      given to the sociedade question affects step 2: the guard only asks
      that some answer was given */
  lemma PfIgnoresRepresentanteAndSociedade(t: Titular, v: Validators, rep: Representante, b: bool)
    requires t.tipo == PF && t.possuiSociedade.Some?
    ensures CheckTitular(t.(representante := rep, possuiSociedade := Some(b)), v) == CheckTitular(t, v)
  {
  }

  /** An individual holder who declares a related company still passes
      step 2 once the other fields are complete */
  lemma PfSociedadeTrueCanPass(t: Titular, v: Validators)
    requires t.tipo == PF && PfComplete(t, v)
    ensures CheckTitular(t.(possuiSociedade := Some(true)), v).None?
  {
  }

  /** For a company holder neither `representante` nor the answer to the
      "data correct?" question affects step 2: the guard only asks that an
      answer was given */
  lemma PjIgnoresRepresentanteAndConfirmation(t: Titular, v: Validators, rep: Representante, b: bool)
    requires t.tipo == PJ && t.dadosCnpjCorretos.Some?
    ensures CheckTitular(t.(representante := rep, dadosCnpjCorretos := Some(b)), v) == CheckTitular(t, v)
  {
  }

  /** The initial record fails each of steps 1 to 4, and step 1 fails on
      the applicant's name */
  lemma InitialFailsEveryStep(v: Validators)
    ensures CheckStep(Initial, 1, v) == Some(ClienteNome)
    ensures CheckStep(Initial, 2, v) == Some(TitularNome)
    ensures CheckStep(Initial, 3, v) == Some(MarcaNome)
    ensures CheckStep(Initial, 4, v) == Some(TermosRecusados)
  {
    assert FailsFirstAt(ClienteChecks(Initial.cliente, v), 0);
    assert FailsFirstAt(PfChecks(Initial.titular, v), 0);
    assert FailsFirstAt(MarcaChecks(Initial.marca), 0);
  }
}

=== FILE: text.dfy ===
/** The two string operations the form applies to raw input: stripping
    everything but ASCII digits (`s.replace(/\D/g, "")`) and upper-casing
    the state code (`toUpperCase`). */
module Text {

  predicate IsDigit(ch: char) {
    '0' <= ch <= '9'
  }

  predicate HasDigit(s: string) {
    exists i :: 0 <= i < |s| && IsDigit(s[i])
  }

  /** The characters of `s` that `/\D/g` keeps */
  function Digits(s: string): (d: string)
    ensures |d| <= |s|
    ensures forall i :: 0 <= i < |d| ==> IsDigit(d[i])
    ensures forall ch :: ch in d <==> ch in s && IsDigit(ch)
    ensures |d| == 0 <==> !HasDigit(s)
    ensures forall ch :: multiset(d)[ch] == (if IsDigit(ch) then multiset(s)[ch] else 0)
  {
    if |s| == 0 then ""
    else
      var rest := Digits(s[1..]);
      assert forall ch :: ch in s <==> ch == s[0] || ch in s[1..];
      assert s == [s[0]] + s[1..];
      assert multiset(s) == multiset([s[0]]) + multiset(s[1..]);
      assert HasDigit(s) <==> IsDigit(s[0]) || HasDigit(s[1..]) by {
        if HasDigit(s[1..]) {
          var i :| 0 <= i < |s[1..]| && IsDigit(s[1..][i]);
          assert IsDigit(s[i + 1]);
        }
        if HasDigit(s) && !IsDigit(s[0]) {
          var i :| 0 <= i < |s| && IsDigit(s[i]);
          assert i > 0 && IsDigit(s[1..][i - 1]);
        }
      }
      if IsDigit(s[0]) then [s[0]] + rest else rest
  }

  predicate IsLower(ch: char) {
    'a' <= ch <= 'z'
  }

  /** No ASCII lower-case letter occurs in `s` */
  predicate NoLower(s: string) {
    forall i :: 0 <= i < |s| ==> !IsLower(s[i])
  }

  /** Upper-casing of one character, restricted to the ASCII letters */
  function UpperChar(ch: char): (u: char)
    ensures !IsLower(u)
    ensures IsLower(ch) ==> u as int + 32 == ch as int
    ensures !IsLower(ch) ==> u == ch
  {
    if IsLower(ch) then (ch as int - 32) as char else ch
  }

  /** `toUpperCase` on the ASCII letters: every position is upper-cased,
      the length is kept and no lower-case letter survives */
  function ToUpperAscii(s: string): (r: string)
    ensures |r| == |s|
    ensures forall i :: 0 <= i < |s| ==> r[i] == UpperChar(s[i])
    ensures NoLower(r)
  {
    seq(|s|, i requires 0 <= i < |s| => UpperChar(s[i]))
  }

  /** Upper-casing twice is upper-casing once */
  lemma ToUpperIdempotent(s: string)
    ensures ToUpperAscii(ToUpperAscii(s)) == ToUpperAscii(s)
  {
    var once := ToUpperAscii(s);
    var twice := ToUpperAscii(once);
    assert forall i :: 0 <= i < |s| ==> twice[i] == once[i];
  }

  /** A string is left alone by upper-casing exactly when it has no
      lower-case letter */
  lemma ToUpperFixedPoints(s: string)
    ensures ToUpperAscii(s) == s <==> NoLower(s)
  {
    if NoLower(s) {
      assert forall i :: 0 <= i < |s| ==> ToUpperAscii(s)[i] == s[i];
    }
  }
}

=== FILE: titular_pf.dfy ===
/** The individual-holder component: CPF feedback, the two effects that
    derive holder fields, the postal-code lookup, the document pickers and
    the sociedade radio. */
module TitularPf {
  import opened Wrappers
  import opened FormTypes
  import opened External
  import Text

  /** `handleCPFValidation`: the tri-state feedback next to the CPF input.
      `None` is "no feedback" */
  function CpfFeedback(raw: string, v: Validators): (r: Option<bool>)
    ensures |Text.Digits(raw)| == 0 ==> r.None?
    ensures |Text.Digits(raw)| == 11 ==> r == Some(v.cpf(raw))
    ensures |Text.Digits(raw)| !in {0, 11} ==> r == Some(false)
  {
    var digits := Text.Digits(raw);
    if |digits| == 0 then None
    else if |digits| == 11 then Some(v.cpf(raw))
    else Some(false)
  }

  /** When the copy effect fires: no related company, the holder is the
      applicant, the holder name is still empty and the applicant has one */
  predicate CopyGuard(t: Titular, c: Cliente) {
    && t.possuiSociedade == Some(false)
    && t.representante == RepTitular
    && t.nomeCompleto == ""
    && c.nomeCompleto != ""
  }

  /** The copy effect's update: the applicant's name, CPF and the seven
      address keys; birth date, profession, documents and the company
      branch are kept */
  function SelfCopy(t: Titular, c: Cliente): (r: Titular)
    ensures r == t.(nomeCompleto := c.nomeCompleto, cpf := c.cpf, cep := c.cep,
                    logradouro := c.logradouro, numero := c.numero,
                    complemento := c.complemento, bairro := c.bairro,
                    cidade := c.cidade, uf := c.uf)
  {
    MergeTitular(t, NoTitularChange.(
      nomeCompleto := Some(c.nomeCompleto), cpf := Some(c.cpf), cep := Some(c.cep),
      logradouro := Some(c.logradouro), numero := Some(c.numero),
      complemento := Some(c.complemento), bairro := Some(c.bairro),
      cidade := Some(c.cidade), uf := Some(c.uf)))
  }

  /** The clear effect's update: identity, address, birth date and
      profession become empty; the three document names are kept */
  function Clear(t: Titular): (r: Titular)
    ensures r == t.(nomeCompleto := "", cpf := "", cep := "", logradouro := "",
                    numero := "", complemento := "", bairro := "", cidade := "",
                    uf := "", dataNascimento := "", profissao := "")
  {
    MergeTitular(t, NoTitularChange.(
      nomeCompleto := Some(""), cpf := Some(""), cep := Some(""), logradouro := Some(""),
      numero := Some(""), complemento := Some(""), bairro := Some(""), cidade := Some(""),
      uf := Some(""), dataNascimento := Some(""), profissao := Some("")))
  }

  /** Both effects of one render, as written: each runs after every render
      (its dependency `updateFormData` is a fresh function each time). The
      two guards exclude each other, so at most one fires */
  function Effects(t: Titular, c: Cliente): (r: Titular)
    ensures CopyGuard(t, c) ==> r == SelfCopy(t, c)
    ensures t.representante == RepProcurador ==> r == Clear(t)
    ensures !CopyGuard(t, c) && t.representante != RepProcurador ==> r == t
    ensures !CopyGuard(r, c)
    ensures r.representante == t.representante
  {
    if CopyGuard(t, c) then SelfCopy(t, c)
    else if t.representante == RepProcurador then Clear(t)
    else t
  }

  /** Running the effects again after they ran changes nothing: one pass
      reaches the state the re-render loop settles in */
  lemma EffectsIdempotent(t: Titular, c: Cliente)
    ensures Effects(Effects(t, c), c) == Effects(t, c)
  {
  }

  /** Once the holder has a name, no applicant data and no holder edit that
      keeps a name can make the copy fire again */
  lemma CopyNeverRefires(t: Titular, c: Cliente)
    requires t.nomeCompleto != ""
    ensures t.representante != RepProcurador ==> Effects(t, c) == t
    ensures Effects(t, c).nomeCompleto == (if t.representante == RepProcurador then "" else t.nomeCompleto)
  {
  }

  /** The guard is "name still empty", not "copied before": emptying the
      holder name makes the copy fire again */
  lemma CopyRefiresWhenNameEmptied(t: Titular, c: Cliente)
    requires t.possuiSociedade == Some(false) && t.representante == RepTitular
    requires c.nomeCompleto != ""
    ensures Effects(t.(nomeCompleto := ""), c).nomeCompleto == c.nomeCompleto
  {
  }

  /** The clear fires for every holder record with `procurador`, including
      one whose fields were just typed in: as written, an individual holder
      represented by an attorney always has an empty name */
  lemma ProcuradorWipesEdits(t: Titular, c: Cliente, name: string)
    requires t.representante == RepProcurador
    ensures Effects(t.(nomeCompleto := name), c).nomeCompleto == ""
  {
  }

  /** Corrected effect: the clear runs only when `representante` has just
      changed to `procurador` (`before` is the holder before the update) */
  function EffectsOnChoice(before: Titular, t: Titular, c: Cliente): (r: Titular)
    ensures CopyGuard(t, c) ==> r == SelfCopy(t, c)
    ensures t.representante == RepProcurador && before.representante != RepProcurador ==> r == Clear(t)
    ensures t.representante == RepProcurador && before.representante == RepProcurador ==> r == t
    ensures !CopyGuard(t, c) && !(t.representante == RepProcurador && before.representante != RepProcurador) ==> r == t
    ensures r.representante == t.representante
  {
    if CopyGuard(t, c) then SelfCopy(t, c)
    else if t.representante == RepProcurador && before.representante != RepProcurador then Clear(t)
    else t
  }

  /** With the corrected effect, a holder name typed while `procurador` is
      already chosen is kept */
  lemma OnChoiceKeepsProcuradorEdits(t: Titular, c: Cliente, name: string)
    requires t.representante == RepProcurador
    ensures EffectsOnChoice(t, t.(nomeCompleto := name), c).nomeCompleto == name
  {
  }

  /** The holder postal-code lookup: an invalid code, an `erro` answer or an
      exception changes nothing; a found address overwrites the holder's
      street, neighbourhood, city and state only */
  function BuscarCep(t: Titular, cep: string, v: Validators, outcome: CepOutcome): (r: Titular)
    ensures !v.cep(cep) || !outcome.CepFound? ==> r == t
    ensures v.cep(cep) && outcome.CepFound? ==>
      r == t.(logradouro := outcome.address.logradouro,
              bairro := outcome.address.bairro,
              cidade := outcome.address.localidade,
              uf := outcome.address.uf)
  {
    if !v.cep(cep) then t
    else
      match outcome
      case CepFound(a) =>
        MergeTitular(t, NoTitularChange.(logradouro := Some(a.logradouro),
                                         bairro := Some(a.bairro),
                                         cidade := Some(a.localidade),
                                         uf := Some(a.uf)))
      case _ => t
  }

  /** The holder state-code input: stored upper-cased, nothing else changes */
  function SetUf(t: Titular, raw: string): (r: Titular)
    ensures r == t.(uf := r.uf)
    ensures |r.uf| == |raw| && Text.NoLower(r.uf)
    ensures forall i :: 0 <= i < |raw| && !Text.IsLower(raw[i]) ==> r.uf[i] == raw[i]
    ensures forall i :: 0 <= i < |raw| && Text.IsLower(raw[i]) ==> r.uf[i] as int + 32 == raw[i] as int
    ensures r.uf == Text.ToUpperAscii(raw)
  {
    MergeTitular(t, NoTitularChange.(uf := Some(Text.ToUpperAscii(raw))))
  }

  /** The sociedade radio stores whether the chosen value is "true" */
  function ChooseSociedade(t: Titular, value: string): (r: Titular)
    ensures r.possuiSociedade == Some(value == "true")
    ensures r == t.(possuiSociedade := r.possuiSociedade)
  {
    MergeTitular(t, NoTitularChange.(possuiSociedade := Some(Some(value == "true"))))
  }

  /** The "holder or attorney?" radio, whose two options are `titular` and
      `procurador`: stores the choice and nothing else (the effects then
      react to it) */
  function ChooseRepresentante(t: Titular, rep: Representante): (r: Titular)
    requires rep == RepTitular || rep == RepProcurador
    ensures r.representante == rep
    ensures r == t.(representante := r.representante)
  {
    MergeTitular(t, NoTitularChange.(representante := Some(rep)))
  }

  /** Choosing `procurador` and letting the effects run empties the holder's
      identity whatever was there */
  lemma ChoosingProcuradorClears(t: Titular, c: Cliente)
    ensures Effects(ChooseRepresentante(t, RepProcurador), c) == Clear(t.(representante := RepProcurador))
  {
  }

  /** The three document pickers of the individual holder */
  datatype Documento = RgTitular | Diploma | Procuracao

  function DocumentoUrl(t: Titular, doc: Documento): string {
    match doc
    case RgTitular => t.rgTitularUrl
    case Diploma => t.diplomaUrl
    case Procuracao => t.procuracaoUrl
  }

  function DocumentoPatch(doc: Documento, name: string): TitularPatch {
    match doc
    case RgTitular => NoTitularChange.(rgTitularUrl := Some(name))
    case Diploma => NoTitularChange.(diplomaUrl := Some(name))
    case Procuracao => NoTitularChange.(procuracaoUrl := Some(name))
  }

  /** `t` and `r` agree everywhere except, possibly, on document `doc` */
  predicate OnlyDocumentoChanged(t: Titular, r: Titular, doc: Documento) {
    match doc
    case RgTitular => r == t.(rgTitularUrl := r.rgTitularUrl)
    case Diploma => r == t.(diplomaUrl := r.diplomaUrl)
    case Procuracao => r == t.(procuracaoUrl := r.procuracaoUrl)
  }

  /** A document picker: no file or a file over the 5 MiB limit changes
      nothing; an accepted file's name becomes the document's field */
  function SelectDocumento(t: Titular, doc: Documento, file: Option<FileInfo>): (r: Titular)
    ensures file.None? || TooLarge(file.value, DocumentLimit) ==> r == t
    ensures file.Some? && !TooLarge(file.value, DocumentLimit) ==> DocumentoUrl(r, doc) == file.value.name
    ensures OnlyDocumentoChanged(t, r, doc)
  {
    if file.None? || TooLarge(file.value, DocumentLimit) then t
    else MergeTitular(t, DocumentoPatch(doc, file.value.name))
  }

  /** A document's remove button empties that document's field only */
  function RemoveDocumento(t: Titular, doc: Documento): (r: Titular)
    ensures DocumentoUrl(r, doc) == ""
    ensures OnlyDocumentoChanged(t, r, doc)
  {
    MergeTitular(t, DocumentoPatch(doc, ""))
  }

  /** The effects never touch a document field, so an upload survives the
      clear */
  lemma EffectsKeepDocumentos(t: Titular, c: Cliente, doc: Documento)
    ensures DocumentoUrl(Effects(t, c), doc) == DocumentoUrl(t, doc)
  {
  }
}

=== FILE: titular_pj.dfy ===
/** The company-holder handlers: the CNPJ lookup and the confirmation radio. */
module TitularPj {
  import opened Wrappers
  import opened FormTypes
  import opened External

  /** The snapshot stored from a lookup answer: the legal name falls back
      to the trade name and then to the empty string; the other three keys
      fall back to the empty string */
  function DadosFromResponse(d: CnpjResponse): (r: DadosCnpj)
    ensures Truthy(d.razaoSocial) ==> r.razaoSocial == d.razaoSocial.value
    ensures !Truthy(d.razaoSocial) && Truthy(d.nomeFantasia) ==> r.razaoSocial == d.nomeFantasia.value
    ensures r.razaoSocial == "" <==> !Truthy(d.razaoSocial) && !Truthy(d.nomeFantasia)
    ensures r.nomeFantasia == "" <==> !Truthy(d.nomeFantasia)
    ensures Truthy(d.nomeFantasia) ==> r.nomeFantasia == d.nomeFantasia.value
    ensures Truthy(d.cnaeDescricao) ==> r.cnae == d.cnaeDescricao.value
    ensures !Truthy(d.cnaeDescricao) ==> r.cnae == ""
    ensures Truthy(d.situacaoDescricao) ==> r.situacao == d.situacaoDescricao.value
    ensures !Truthy(d.situacaoDescricao) ==> r.situacao == ""
  {
    DadosCnpj(
      OrElse(d.razaoSocial, OrElse(d.nomeFantasia, "")),
      OrElse(d.nomeFantasia, ""),
      OrElse(d.cnaeDescricao, ""),
      OrElse(d.situacaoDescricao, ""))
  }

  /** `buscarCNPJ`: an invalid CNPJ triggers nothing; a response that is
      not ok or an exception changes nothing; a found company replaces
      `dadosCnpj` and no other key of the holder */
  function BuscarCnpj(t: Titular, cnpj: string, v: Validators, outcome: CnpjOutcome): (r: Titular)
    ensures !v.cnpj(cnpj) || !outcome.CnpjFound? ==> r == t
    ensures v.cnpj(cnpj) && outcome.CnpjFound? ==>
      r == t.(dadosCnpj := Some(DadosFromResponse(outcome.data)))
  {
    if !v.cnpj(cnpj) then t
    else
      match outcome
      case CnpjFound(d) => MergeTitular(t, NoTitularChange.(dadosCnpj := Some(Some(DadosFromResponse(d)))))
      case _ => t
  }

  /** The "is the data correct?" radio stores whether the chosen value is
      "true", and nothing else */
  function ChooseCorretos(t: Titular, value: string): (r: Titular)
    ensures r.dadosCnpjCorretos == Some(value == "true")
    ensures r == t.(dadosCnpjCorretos := r.dadosCnpjCorretos)
  {
    MergeTitular(t, NoTitularChange.(dadosCnpjCorretos := Some(Some(value == "true"))))
  }

  /** The "are you the legal representative?" radio, whose options are
      `sim`, `nao` and `procurador`: stores the choice and nothing else */
  function ChooseRepresentante(t: Titular, rep: Representante): (r: Titular)
    requires rep != RepTitular
    ensures r.representante == rep
    ensures r == t.(representante := r.representante)
  {
    MergeTitular(t, NoTitularChange.(representante := Some(rep)))
  }

  /** A lookup never touches what decides the confirmation or the
      representative, so repeating it after an answer keeps that answer */
  lemma LookupKeepsAnswers(t: Titular, cnpj: string, v: Validators, outcome: CnpjOutcome)
    ensures BuscarCnpj(t, cnpj, v, outcome).dadosCnpjCorretos == t.dadosCnpjCorretos
    ensures BuscarCnpj(t, cnpj, v, outcome).representante == t.representante
    ensures BuscarCnpj(t, cnpj, v, outcome).cnpj == t.cnpj
  {
  }
}

=== FILE: wizard.dfy ===
/** The page that owns the record: the section updaters, the step moves
    behind the three buttons, the effects of the mounted holder component,
    and the record's life as a sequence of user events. */
module Wizard {
  import opened Wrappers
  import opened FormTypes
  import opened External
  import opened StepValidation
  import DadosCliente
  import TitularPf
  import TitularPj
  import DadosMarca

  // ---- Section updaters ----

  /** `updateCliente`: only the applicant changes, by the spread merge */
  function UpdateCliente(s: FormState, p: ClientePatch): (r: FormState)
    ensures r == s.(cliente := r.cliente)
    ensures r.cliente == MergeCliente(s.cliente, p)
  {
    s.(cliente := MergeCliente(s.cliente, p))
  }

  /** `updateTitular`: only the holder changes, by the spread merge */
  function UpdateTitular(s: FormState, p: TitularPatch): (r: FormState)
    ensures r == s.(titular := r.titular)
    ensures r.titular == MergeTitular(s.titular, p)
  {
    s.(titular := MergeTitular(s.titular, p))
  }

  /** `updateMarca`: only the trademark changes, by the spread merge */
  function UpdateMarca(s: FormState, p: MarcaPatch): (r: FormState)
    ensures r == s.(marca := r.marca)
    ensures r.marca == MergeMarca(s.marca, p)
  {
    s.(marca := MergeMarca(s.marca, p))
  }

  /** `updateTermos`: the terms become exactly the given answer */
  function UpdateTermos(s: FormState, aceita: bool): (r: FormState)
    ensures r == s.(termos := r.termos)
    ensures r.termos.aceitaPolitica == aceita
  {
    s.(termos := Termos(aceita))
  }

  /** Switching `tipo` is a plain merge: the fields of the branch left
      behind are kept, not discarded */
  lemma SwitchTipoKeepsOtherBranch(s: FormState, tipo: Tipo)
    ensures UpdateTitular(s, NoTitularChange.(tipo := Some(tipo))).titular == s.titular.(tipo := tipo)
  {
  }

  // ---- Step moves ----

  /** `nextStep`: one step forward exactly when the current step validates;
      the record itself never changes */
  function NextStep(s: FormState, v: Validators): (r: FormState)
    ensures r == s.(currentStep := r.currentStep)
    ensures ValidateStep(s, s.currentStep, v) ==> r.currentStep == s.currentStep + 1
    ensures !ValidateStep(s, s.currentStep, v) ==> r == s
  {
    if ValidateStep(s, s.currentStep, v) then s.(currentStep := s.currentStep + 1) else s
  }

  /** `prevStep`: one step back, without validation */
  function PrevStep(s: FormState): (r: FormState)
    ensures r == s.(currentStep := r.currentStep)
    ensures r.currentStep == s.currentStep - 1
  {
    s.(currentStep := s.currentStep - 1)
  }

  /** Going back after a successful move forward restores the record */
  lemma PrevUndoesNext(s: FormState, v: Validators)
    requires ValidateStep(s, s.currentStep, v)
    ensures PrevStep(NextStep(s, v)) == s
  {
  }

  /** `handleSubmit`: the terminal step 5 exactly when step 4 validates */
  function HandleSubmit(s: FormState, v: Validators): (r: FormState)
    ensures r == s.(currentStep := r.currentStep)
    ensures s.termos.aceitaPolitica ==> r.currentStep == 5
    ensures !s.termos.aceitaPolitica ==> r == s
  {
    if ValidateStep(s, 4, v) then s.(currentStep := 5) else s
  }

  /** The buttons under the form */
  datatype Button = Voltar | Proximo | Finalizar

  /** Which buttons the page renders: none on the thank-you step 5; "back"
      above step 1; "next" below step 4 and "finish" otherwise */
  predicate Offered(s: FormState, b: Button) {
    s.currentStep != 5 &&
    match b
    case Voltar => s.currentStep > 1
    case Proximo => s.currentStep < 4
    case Finalizar => !(s.currentStep < 4)
  }

  /** Pressing a button: a button that is not rendered cannot be pressed.
      Within steps 1 to 5 every press keeps the step in range and moves it
      by at most one */
  function Press(s: FormState, b: Button, v: Validators): (r: FormState)
    ensures r == s.(currentStep := r.currentStep)
    ensures 1 <= s.currentStep <= 5 ==> 1 <= r.currentStep <= 5
    ensures 1 <= s.currentStep <= 5 ==> s.currentStep - 1 <= r.currentStep <= s.currentStep + 1
    ensures 1 <= s.currentStep < 5 && r.currentStep == 5 ==>
      b == Finalizar && s.currentStep == 4 && s.termos.aceitaPolitica
    ensures !Offered(s, b) ==> r == s
    ensures b == Voltar && 1 < s.currentStep < 5 ==> r == PrevStep(s)
    ensures b == Proximo && s.currentStep < 4 ==> r == NextStep(s, v)
    ensures b == Finalizar && s.currentStep == 4 ==> r == HandleSubmit(s, v)
  {
    if !Offered(s, b) then s
    else
      match b
      case Voltar => PrevStep(s)
      case Proximo => NextStep(s, v)
      case Finalizar => HandleSubmit(s, v)
  }

  // ---- Events ----

  /** A user action on the page. Each exists only while its input is
      rendered; lookups are taken together with the blur that starts them */
  datatype Event =
    | EditCliente(clientePatch: ClientePatch)
    | ClienteCepBlur(cep: string, cepOutcome: CepOutcome)
    | ClienteUf(raw: string)
    | ClienteRg(file: Option<FileInfo>)
    | EditTitular(titularPatch: TitularPatch)
    | TitularCepBlur(cep: string, cepOutcome: CepOutcome)
    | TitularUf(raw: string)
    | SociedadeChoice(value: string)
    | RepresentanteChoice(rep: Representante)
    | DocumentoSelect(doc: TitularPf.Documento, file: Option<FileInfo>)
    | DocumentoRemove(doc: TitularPf.Documento)
    | CnpjBlur(cnpj: string, cnpjOutcome: CnpjOutcome)
    | CorretosChoice(value: string)
    | EditMarca(marcaPatch: MarcaPatch)
    | PossuiLogoChoice(value: string)
    | LogoSelect(file: Option<FileInfo>)
    | LogoRemove
    | TermosChoice(aceita: bool)
    | Click(button: Button)

  /** The individual-holder component is mounted */
  predicate PfMounted(s: FormState) {
    s.currentStep == 2 && s.titular.tipo == PF
  }

  /** The company-holder component is mounted */
  predicate PjMounted(s: FormState) {
    s.currentStep == 2 && s.titular.tipo == PJ
  }

  /** The direct effect of one event, before any component effect runs */
  function Apply(s: FormState, e: Event, v: Validators): (r: FormState)
    ensures !e.Click? ==> r.currentStep == s.currentStep
    ensures !e.Click? && s.currentStep != 1 ==> r.cliente == s.cliente
    ensures !e.Click? && s.currentStep != 2 ==> r.titular == s.titular
    ensures !e.Click? && s.currentStep != 3 ==> r.marca == s.marca
    ensures !e.Click? && s.currentStep != 4 ==> r.termos == s.termos
  {
    match e
    case EditCliente(p) => if s.currentStep == 1 then UpdateCliente(s, p) else s
    case ClienteCepBlur(cep, o) =>
      if s.currentStep == 1 then s.(cliente := DadosCliente.BuscarCep(s.cliente, cep, v, o)) else s
    case ClienteUf(raw) => if s.currentStep == 1 then s.(cliente := DadosCliente.SetUf(s.cliente, raw)) else s
    case ClienteRg(f) => if s.currentStep == 1 then s.(cliente := DadosCliente.SelectRg(s.cliente, f)) else s
    case EditTitular(p) => if s.currentStep == 2 then UpdateTitular(s, p) else s
    case TitularCepBlur(cep, o) =>
      if PfMounted(s) then s.(titular := TitularPf.BuscarCep(s.titular, cep, v, o)) else s
    case TitularUf(raw) => if PfMounted(s) then s.(titular := TitularPf.SetUf(s.titular, raw)) else s
    case SociedadeChoice(value) =>
      if PfMounted(s) then s.(titular := TitularPf.ChooseSociedade(s.titular, value)) else s
    case RepresentanteChoice(rep) =>
      if PfMounted(s) && (rep == RepTitular || rep == RepProcurador) then
        s.(titular := TitularPf.ChooseRepresentante(s.titular, rep))
      else if PjMounted(s) && rep != RepTitular then
        s.(titular := TitularPj.ChooseRepresentante(s.titular, rep))
      else s
    case DocumentoSelect(doc, f) =>
      if PfMounted(s) then s.(titular := TitularPf.SelectDocumento(s.titular, doc, f)) else s
    case DocumentoRemove(doc) =>
      if PfMounted(s) then s.(titular := TitularPf.RemoveDocumento(s.titular, doc)) else s
    case CnpjBlur(cnpj, o) =>
      if PjMounted(s) then s.(titular := TitularPj.BuscarCnpj(s.titular, cnpj, v, o)) else s
    case CorretosChoice(value) =>
      if PjMounted(s) then s.(titular := TitularPj.ChooseCorretos(s.titular, value)) else s
    case EditMarca(p) => if s.currentStep == 3 then UpdateMarca(s, p) else s
    case PossuiLogoChoice(value) =>
      if s.currentStep == 3 then s.(marca := DadosMarca.ChoosePossuiLogo(s.marca, value)) else s
    case LogoSelect(f) => if s.currentStep == 3 then s.(marca := DadosMarca.SelectLogo(s.marca, f)) else s
    case LogoRemove => if s.currentStep == 3 then s.(marca := DadosMarca.RemoveLogo(s.marca)) else s
    case TermosChoice(a) => if s.currentStep == 4 then UpdateTermos(s, a) else s
    case Click(b) => Press(s, b, v)
  }

  /** Inputs that exist only inside the individual-holder component */
  predicate PfInput(e: Event) {
    e.TitularCepBlur? || e.TitularUf? || e.SociedadeChoice? || e.DocumentoSelect? || e.DocumentoRemove?
  }

  /** Inputs that exist only inside the company-holder component */
  predicate PjInput(e: Event) {
    e.CnpjBlur? || e.CorretosChoice?
  }

  /** What each kind of event does: a click presses its button, an edit on
      its own page merges into that section, and an input of a holder
      component does nothing while that component is not mounted */
  lemma ApplyDispatch(s: FormState, e: Event, v: Validators)
    ensures e.Click? ==> Apply(s, e, v) == Press(s, e.button, v)
    ensures e.EditCliente? && s.currentStep == 1 ==> Apply(s, e, v) == UpdateCliente(s, e.clientePatch)
    ensures e.EditTitular? && s.currentStep == 2 ==> Apply(s, e, v) == UpdateTitular(s, e.titularPatch)
    ensures e.EditMarca? && s.currentStep == 3 ==> Apply(s, e, v) == UpdateMarca(s, e.marcaPatch)
    ensures e.TermosChoice? && s.currentStep == 4 ==> Apply(s, e, v) == UpdateTermos(s, e.aceita)
    ensures PfInput(e) && !PfMounted(s) ==> Apply(s, e, v) == s
    ensures PjInput(e) && !PjMounted(s) ==> Apply(s, e, v) == s
  {
  }

  /** The applicant inputs of step 1: the postal-code lookup, the state
      code and the identity-document picker each apply their handler */
  lemma ApplyClienteInputs(s: FormState, e: Event, v: Validators)
    requires s.currentStep == 1
    ensures e.ClienteCepBlur? ==>
      Apply(s, e, v) == s.(cliente := DadosCliente.BuscarCep(s.cliente, e.cep, v, e.cepOutcome))
    ensures e.ClienteUf? ==> Apply(s, e, v) == s.(cliente := DadosCliente.SetUf(s.cliente, e.raw))
    ensures e.ClienteRg? ==> Apply(s, e, v) == s.(cliente := DadosCliente.SelectRg(s.cliente, e.file))
  {
  }

  /** The inputs of the individual-holder component, while it is mounted;
      its `representante` radio offers titular and procurador only */
  lemma ApplyTitularPfInputs(s: FormState, e: Event, v: Validators)
    requires PfMounted(s)
    ensures e.TitularCepBlur? ==>
      Apply(s, e, v) == s.(titular := TitularPf.BuscarCep(s.titular, e.cep, v, e.cepOutcome))
    ensures e.TitularUf? ==> Apply(s, e, v) == s.(titular := TitularPf.SetUf(s.titular, e.raw))
    ensures e.SociedadeChoice? ==> Apply(s, e, v) == s.(titular := TitularPf.ChooseSociedade(s.titular, e.value))
    ensures e.RepresentanteChoice? && (e.rep == RepTitular || e.rep == RepProcurador) ==>
      Apply(s, e, v) == s.(titular := TitularPf.ChooseRepresentante(s.titular, e.rep))
    ensures e.RepresentanteChoice? && !(e.rep == RepTitular || e.rep == RepProcurador) ==> Apply(s, e, v) == s
    ensures e.DocumentoSelect? ==>
      Apply(s, e, v) == s.(titular := TitularPf.SelectDocumento(s.titular, e.doc, e.file))
    ensures e.DocumentoRemove? ==> Apply(s, e, v) == s.(titular := TitularPf.RemoveDocumento(s.titular, e.doc))
  {
  }

  /** The inputs of the company-holder component, while it is mounted; its
      `representante` radio offers sim, nao and procurador */
  lemma ApplyTitularPjInputs(s: FormState, e: Event, v: Validators)
    requires PjMounted(s)
    ensures e.CnpjBlur? ==>
      Apply(s, e, v) == s.(titular := TitularPj.BuscarCnpj(s.titular, e.cnpj, v, e.cnpjOutcome))
    ensures e.CorretosChoice? ==> Apply(s, e, v) == s.(titular := TitularPj.ChooseCorretos(s.titular, e.value))
    ensures e.RepresentanteChoice? && e.rep != RepTitular ==>
      Apply(s, e, v) == s.(titular := TitularPj.ChooseRepresentante(s.titular, e.rep))
    ensures e.RepresentanteChoice? && e.rep == RepTitular ==> Apply(s, e, v) == s
  {
  }

  /** The trademark inputs of step 3: the logo radio, picker and remove
      button each apply their handler */
  lemma ApplyMarcaInputs(s: FormState, e: Event, v: Validators)
    requires s.currentStep == 3
    ensures e.PossuiLogoChoice? ==> Apply(s, e, v) == s.(marca := DadosMarca.ChoosePossuiLogo(s.marca, e.value))
    ensures e.LogoSelect? ==> Apply(s, e, v) == s.(marca := DadosMarca.SelectLogo(s.marca, e.file))
    ensures e.LogoRemove? ==> Apply(s, e, v) == s.(marca := DadosMarca.RemoveLogo(s.marca))
  {
  }

  /** The effects of the individual-holder component, run after every
      render while it is mounted; nothing but the holder changes */
  function Settle(s: FormState): (r: FormState)
    ensures r == s.(titular := r.titular)
    ensures !PfMounted(s) ==> r == s
    ensures PfMounted(s) ==> r.titular == TitularPf.Effects(s.titular, s.cliente)
  {
    if PfMounted(s) then s.(titular := TitularPf.Effects(s.titular, s.cliente)) else s
  }

  /** One user event followed by the effects it triggers */
  function Step(s: FormState, e: Event, v: Validators): (r: FormState)
    ensures r == Apply(s, e, v).(titular := r.titular)
    ensures Settle(r) == r
    ensures !PfMounted(Apply(s, e, v)) ==> r == Apply(s, e, v)
    ensures PfMounted(Apply(s, e, v)) ==> r.titular == TitularPf.Effects(Apply(s, e, v).titular, Apply(s, e, v).cliente)
    ensures 1 <= s.currentStep <= 5 ==> 1 <= r.currentStep <= 5
    ensures 1 <= s.currentStep <= 5 ==> s.currentStep - 1 <= r.currentStep <= s.currentStep + 1
  {
    var a := Apply(s, e, v);
    TitularPf.EffectsIdempotent(a.titular, a.cliente);
    Settle(a)
  }

  /** The record after a sequence of events */
  function Run(s: FormState, events: seq<Event>, v: Validators): (r: FormState)
    ensures |events| > 0 ==> Settle(r) == r
    ensures (forall i :: 0 <= i < |events| ==> !events[i].Click?) ==> r.currentStep == s.currentStep
    decreases |events|
  {
    if |events| == 0 then s else Run(Step(s, events[0], v), events[1..], v)
  }

  // ---- Properties of the event model ----

  /** Every step result is already settled: running the effects once more
      changes nothing */
  lemma StepIsSettled(s: FormState, e: Event, v: Validators)
    ensures Settle(Step(s, e, v)) == Step(s, e, v)
  {
    var a := Apply(s, e, v);
    if PfMounted(a) {
      TitularPf.EffectsIdempotent(a.titular, a.cliente);
    }
  }

  /** One event keeps the step within 1 to 5 and never skips a step */
  lemma StepBounds(s: FormState, e: Event, v: Validators)
    requires 1 <= s.currentStep <= 5
    ensures 1 <= Step(s, e, v).currentStep <= 5
    ensures s.currentStep - 1 <= Step(s, e, v).currentStep <= s.currentStep + 1
  {
  }

  /** Any sequence of events keeps the step within 1 to 5 */
  lemma {:induction false} RunBounds(s: FormState, events: seq<Event>, v: Validators)
    requires 1 <= s.currentStep <= 5
    ensures 1 <= Run(s, events, v).currentStep <= 5
    decreases |events|
  {
    if |events| > 0 {
      StepBounds(s, events[0], v);
      RunBounds(Step(s, events[0], v), events[1..], v);
    }
  }

  /** The thank-you step is final: no event changes anything there */
  lemma TerminalStep(s: FormState, e: Event, v: Validators)
    requires s.currentStep == 5
    ensures Step(s, e, v) == s
  {
  }

  /** Once on step 5, any sequence of events leaves the record as it is */
  lemma {:induction false} RunFromTerminal(s: FormState, events: seq<Event>, v: Validators)
    requires s.currentStep == 5
    ensures Run(s, events, v) == s
    decreases |events|
  {
    if |events| > 0 {
      TerminalStep(s, events[0], v);
      RunFromTerminal(s, events[1..], v);
    }
  }

  /** Step 5 is entered only from step 4, by "finish", with the terms
      accepted */
  lemma EnterTerminalOnlyBySubmit(s: FormState, e: Event, v: Validators)
    requires 1 <= s.currentStep < 5
    requires Step(s, e, v).currentStep == 5
    ensures e == Click(Finalizar) && s.currentStep == 4 && s.termos.aceitaPolitica
  {
  }

  /** From the initial record, whatever happens, the step stays within 1
      to 5 */
  lemma InitialRunBounds(events: seq<Event>, v: Validators)
    ensures 1 <= Run(Initial, events, v).currentStep <= 5
  {
    RunBounds(Initial, events, v);
  }

  /** The holder postal-code lookup never reaches the applicant */
  lemma TitularCepKeepsCliente(s: FormState, cep: string, o: CepOutcome, v: Validators)
    ensures Step(s, TitularCepBlur(cep, o), v).cliente == s.cliente
  {
  }

  /** Answering "no related company" as the holder's own representative,
      with an empty holder name, copies the applicant's identity and
      address into the holder */
  lemma NoSociedadeCopiesApplicant(s: FormState, v: Validators)
    requires PfMounted(s) && s.titular.representante == RepTitular
    requires s.titular.nomeCompleto == "" && s.cliente.nomeCompleto != ""
    ensures Step(s, SociedadeChoice("false"), v).titular ==
      TitularPf.SelfCopy(s.titular.(possuiSociedade := Some(false)), s.cliente)
    ensures Step(s, SociedadeChoice("false"), v).titular.nomeCompleto == s.cliente.nomeCompleto
    ensures Step(s, SociedadeChoice("false"), v).titular.cpf == s.cliente.cpf
    ensures Step(s, SociedadeChoice("false"), v).titular.profissao == s.titular.profissao
  {
  }

  /** As written, after any event that leaves an individual holder with
      `procurador` on step 2, the holder name is empty and step 2 fails */
  lemma ProcuradorBlocksHolderStep(s: FormState, e: Event, v: Validators)
    requires PfMounted(Step(s, e, v)) && Step(s, e, v).titular.representante == RepProcurador
    ensures Step(s, e, v).titular.nomeCompleto == ""
    ensures !ValidateStep(Step(s, e, v), 2, v)
  {
  }

  /** A concrete case: typing a name for the attorney-represented holder
      leaves the name empty */
  lemma ProcuradorNameIsLost(v: Validators)
    ensures
      var s := Initial.(currentStep := 2, titular := Initial.titular.(
                 possuiSociedade := Some(false), representante := RepProcurador));
      Step(s, EditTitular(NoTitularChange.(nomeCompleto := Some("Maria Souza"))), v).titular.nomeCompleto == ""
  {
  }

  // ---- Corrected holder effect ----

  /** The effects with the corrected clear, which needs the record from
      before the event */
  function SettleOnChoice(before: FormState, s: FormState): (r: FormState)
    ensures r == s.(titular := r.titular)
    ensures !PfMounted(s) ==> r == s
    ensures PfMounted(s) ==> r.titular == TitularPf.EffectsOnChoice(before.titular, s.titular, s.cliente)
  {
    if PfMounted(s) then s.(titular := TitularPf.EffectsOnChoice(before.titular, s.titular, s.cliente))
    else s
  }

  /** One event under the corrected effect */
  function StepOnChoice(s: FormState, e: Event, v: Validators): (r: FormState)
    ensures r == Step(s, e, v).(titular := r.titular)
    ensures !PfMounted(Apply(s, e, v)) ==> r == Step(s, e, v)
    ensures Apply(s, e, v).titular.representante != RepProcurador ==> r == Step(s, e, v)
    ensures s.titular.representante == RepProcurador && Apply(s, e, v).titular.representante == RepProcurador ==>
      r == Apply(s, e, v)
    ensures PfMounted(Apply(s, e, v)) ==>
      r.titular == TitularPf.EffectsOnChoice(s.titular, Apply(s, e, v).titular, Apply(s, e, v).cliente)
  {
    SettleOnChoice(s, Apply(s, e, v))
  }

  /** With the corrected effect, choosing `procurador` still clears the
      holder's identity, and a name typed afterwards is kept */
  lemma OnChoiceClearsThenKeeps(s: FormState, name: string, v: Validators)
    requires PfMounted(s) && s.titular.representante == RepTitular
    ensures
      var chosen := StepOnChoice(s, RepresentanteChoice(RepProcurador), v);
      && chosen.titular.nomeCompleto == ""
      && StepOnChoice(chosen, EditTitular(NoTitularChange.(nomeCompleto := Some(name))), v).titular.nomeCompleto == name
  {
  }

  /** With the corrected effect an attorney-represented individual holder
      can pass step 2: filling in a complete holder keeps it complete */
  lemma OnChoiceProcuradorCanPass(s: FormState, p: TitularPatch, v: Validators)
    requires PfMounted(s) && s.titular.representante == RepProcurador
    requires p.tipo.None? && p.representante.None?
    requires PfComplete(MergeTitular(s.titular, p), v)
    ensures ValidateStep(StepOnChoice(s, EditTitular(p), v), 2, v)
  {
  }
}

=== FILE: wrappers.dfy ===
/** Optional values: the model's rendering of TypeScript's `null` and
    `undefined`, and of the optional keys of a `Partial<...>` record. */
module Wrappers {

  datatype Option<+T> = None | Some(value: T) {

    /** The wrapped value, or `fallback` when there is none */
    function GetOr(fallback: T): T {
      match this
      case Some(v) => v
      case None => fallback
    }
  }
}
